=== FILE: README.md ===
# Child-process utilities of lerna, modelled in Dafny

This project models the small core of lerna's `ChildProcessUtilities`. That core launches
external commands in three ways: `exec` (buffered), `spawn` (inherited stdio) and
`spawnStreaming` (stdout and stderr prefixed). It counts live children. It tells
`onAllExited` listeners when the count falls to zero. It annotates a failed child's error
with whatever the child printed.

No processes are run here. The model is a state machine. A caller's launches and
subscriptions, a child's `error` and `exit(code, signal)` events, and turns of the event
loop step an immutable world.

- `JsValues` (js_values.dfy): the JavaScript values the core touches. `Option` stands in for
  `null`/`undefined`, `Value` for option and error fields, and `Obj` for plain objects.
  `Assign` is `Object.assign`.
- `LiveChildren` (live_children.dfy): the module-wide registry. It holds the `children`
  counter and one `accountedFor` flag per `registerChild` call, indexed by handle. It also
  holds the `setImmediate` queue of pending "empty" broadcasts and the `onAllExited`
  listeners. `Valid` says the counter equals the number of handles not yet accounted for.
- `Launching` (launching.dfy): the pure parts. These are the default `stdio` of each entry
  point and how caller options override it, the streams the child then has, and the colour
  wheel. They also include how `exit` and `error` events become callback arguments,
  `readStream` and `annotateError`.
- `Lifecycle` (lifecycle.dfy): the world is the registry, the child handles and a log of
  what callers observe. `Step` applies one event. `Consistent` holds at module load and is kept by
  every event, so it holds in every reachable world. Several lemmas state trace properties
  of `Run`.
- `Scenarios` (scenarios.dfy): concrete runs that mirror how the utilities are used. These
  cover the `onAllExited` scenario with mixed callback and promise launches, a killed
  `exec`, a piped `exec`, an `error` followed by an `exit`, and colour reuse after an exit.

Whether a child has a stdout or stderr stream is decided by Node's `child_process`. The
rule is that a `"pipe"`, unset or `null` setting for that descriptor gives a stream. The
model takes that rule as given (`Launching.HasStream`). The text a stream drains to is an
input of each launch. The model never computes it.

The prefix colour follows the *live* count. `colorWheel` is indexed by
`children % NUM_COLORS`, read before `_spawn` registers the new child, not by a cumulative
count of streaming launches. `Scenarios.ColourRepeatsAfterExit` shows the consequence: a
streaming launch made after the previous child has exited reuses that child's colour.

Only the bookkeeping is guarded against running twice; the callback is not.
`Scenarios.ErrorThenExitCallsBackTwice` shows a callback running twice for a child that
reports `error` and then `exit`.

## Model

| member | source | states |
|---|---|---|
| JsValues.Assign | src/ChildProcessUtilities.js:28-31 | A null options object leaves the defaults as they are. Otherwise every caller property overrides the default and every other default survives. |
| Launching.DefaultOptions | src/ChildProcessUtilities.js:27-51 | The defaults hold only `stdio`. `exec` uses `["ignore", "ignore", "pipe"]`, `spawn` uses `"inherit"` and `spawnStreaming` uses `["ignore", "pipe", "pipe"]`. |
| Launching.LaunchOptions | src/ChildProcessUtilities.js:27-51 | The merged options always have `stdio`. It is the caller's value when the caller gave one, even `undefined`, and the entry point's default otherwise. Every other caller option passes through unchanged. |
| Launching.DefaultWiring | src/ChildProcessUtilities.js:27-51 | With no caller `stdio`, `exec` gives the child only a stderr stream. `spawn` gives it no streams. `spawnStreaming` gives it stdout and stderr but no stdin. |
| Launching.CallerPipeWins | src/ChildProcessUtilities.js:28-31 | A caller's `stdio: "pipe"` gives the child all three streams under every entry point. |
| Launching.ChildStreams | src/ChildProcessUtilities.js:116-117 | The child has a stdout or stderr stream exactly when its stdio setting yields one. A present stream carries the text it drains to. |
| Launching.JsRemainder | src/ChildProcessUtilities.js:53 | JavaScript's `%` truncates toward zero. A non-negative dividend gives the ordinary remainder in `[0, b)`, and a negative one gives a remainder in `(-b, 0]`. |
| Launching.JsRemainderOdd | src/ChildProcessUtilities.js:53 | Negating the dividend negates JavaScript's remainder. |
| Launching.WheelColour | src/ChildProcessUtilities.js:53 | A colour exists exactly when the JavaScript remainder is a valid index. That happens when the count is non-negative or a multiple of six. For a non-negative count it is wheel entry `count mod 6`. |
| Launching.AdjacentCountsGetDifferentColours | src/ChildProcessUtilities.js:16-24 | Live counts that differ by one always map to two different colours. |
| Launching.WheelRepeatsEverySix | src/ChildProcessUtilities.js:16-24 | Two counts get the same colour exactly when they differ by a multiple of six. |
| Launching.ReadStream | src/ChildProcessUtilities.js:106-112 | An absent stream reads as `null`. A present stream reads as its drained text, so the result is `null` exactly when the stream is absent. |
| Launching.Annotate | src/ChildProcessUtilities.js:114-123 | The annotated error has the original fields plus `stdout` and `stderr`. The two new fields hold what each stream read as. Every other field keeps its value. |
| Launching.DefaultExecAnnotatesStderrOnly | src/ChildProcessUtilities.js:27-33 | An error annotated from a default `exec` child has a `null` stdout, because stdout is not piped, and the drained stderr text (src/ChildProcessUtilities.js:114-121). |
| Launching.ExitError | src/ChildProcessUtilities.js:141 | The synthesised error has exactly the fields `code` and `signal`. A missing code or signal is `null`. |
| Launching.ExitFailedCases | src/ChildProcessUtilities.js:140 | An exit is clean exactly when the code is the number 0 and the signal is `null`. A `null` code is always a failure. |
| Launching.ExitCall | src/ChildProcessUtilities.js:137-149 | An exit is a failure iff the code is not 0 (including a null code) or there is a signal. A failure calls back with the annotated `{code, signal}`. A clean exit calls back `(null, stdout)` when stdout exists and with no arguments otherwise. |
| Launching.ErrorEventCall | src/ChildProcessUtilities.js:131-135 | An `error` event always calls back with the error, annotated with both streams, keeping its other fields. |
| Launching.FailedExitCarriesEverything | src/ChildProcessUtilities.js:140-142 | A failed exit's error has exactly `code`, `signal`, `stdout` and `stderr`. A stream field is `null` exactly when the child lacks that stream. |
| LiveChildren.LiveCountZero | src/ChildProcessUtilities.js:9-10 | The live count is zero exactly when every handle is accounted for. |
| LiveChildren.LiveCountFull | src/ChildProcessUtilities.js:9-10 | The live count equals the number of handles exactly when none is accounted for. |
| LiveChildren.LiveCountAccount | src/ChildProcessUtilities.js:90-92 | Accounting for one live handle lowers the live count by exactly one. |
| LiveChildren.Register | src/ChildProcessUtilities.js:81-86 | Registration adds one to the count and issues a fresh handle that is not accounted for. Existing flags, the queue and the listeners are untouched, and the registry invariant is kept. |
| LiveChildren.BookKeep | src/ChildProcessUtilities.js:88-101 | A handle's first call marks it accounted for and lowers the count by one. Later calls change nothing. The queue grows by one "empty" task exactly when a first call takes the count to zero. No other handle's flag changes, and the invariant is kept. |
| LiveChildren.ChildProcessCount | src/ChildProcessUtilities.js:72-74 | In a valid registry the reported count equals the number of live handles, so it is never negative. It is zero exactly when every handle is accounted for. |
| LiveChildren.OnAllExited | src/ChildProcessUtilities.js:76-78 | Subscribing adds the listener after the existing ones and leaves the counter, flags and queue alone. |
| LiveChildren.RunImmediate | src/ChildProcessUtilities.js:96-98 | Running the oldest posted task delivers "empty" to every listener subscribed at that moment, in order, and removes the task. With nothing posted, nothing happens. |
| LiveChildren.BookKeepAll | src/ChildProcessUtilities.js:86-101 | After any sequence of bookKeeper calls, every called handle is accounted for. No flag is ever cleared, the flag of every handle not called is unchanged, and the invariant is kept. |
| LiveChildren.BookKeepAllAccountedIsNoop | src/ChildProcessUtilities.js:90 | Once every handle is accounted for, bookKeeper calls leave the registry unchanged. |
| LiveChildren.EmptyPostedOncePerDrain | src/ChildProcessUtilities.js:94-99 | While children are live, any sequence of bookKeeper calls, repeats included, posts "empty" exactly once if it accounts for every child and never otherwise. |
| LiveChildren.RegisterManyCounts | src/ChildProcessUtilities.js:81-82 | N registrations raise the count by N, add N handles and keep the registry invariant. |
| LiveChildren.RegisterManyFlags | src/ChildProcessUtilities.js:84-86 | N registrations leave the earlier flags alone, and every one of the N new handles starts live. |
| Lifecycle.LaunchChild | src/ChildProcessUtilities.js:27-153 | `exec`, `spawn` and `spawnStreaming` merge their options and call `_spawn`, which registers exactly one child of that mode. Handlers are attached exactly when a callback is given. A streaming launch picks its colour from the live count read before registering. It throws, after registering, exactly when that colour is missing or the merged options give no stdout or stderr to pipe. Other launches log nothing. |
| Lifecycle.OnError | src/ChildProcessUtilities.js:131-135 | The registry after an `error` event is the bookKeeper's result. With a callback, the `once` handler is used up, the annotated-error call is logged after the bookkeeping, and no other child changes. A used-up handler makes the event a no-op. Without a callback only the bookkeeping happens (src/ChildProcessUtilities.js:152). |
| Lifecycle.OnExit | src/ChildProcessUtilities.js:137-150 | The registry after an `exit` event is the bookKeeper's result. With a callback, the `once` handler is used up, the classified call is logged after the bookkeeping, and no other child changes. A used-up handler makes the event a no-op. Without a callback only the bookkeeping happens. |
| Lifecycle.RunTick | src/ChildProcessUtilities.js:94-98 | A turn of the event loop appends one "empty" notification per current listener, in order, when a task is pending. Otherwise it does nothing. Children and counts are untouched. |
| Lifecycle.Step | src/ChildProcessUtilities.js:125-153 | Only a launch registers a child, adding one handle and one to the count. An `error` or `exit` for a handle already accounted for leaves the registry unchanged. A subscription only appends its listener, and a turn of the event loop leaves children and flags alone. |
| Lifecycle.LaunchKeepsConsistent | src/ChildProcessUtilities.js:125-129 | A launch keeps the world consistent: the new handle is live, has its handlers attached and is counted. |
| Lifecycle.ErrorKeepsConsistent | src/ChildProcessUtilities.js:131-135 | An `error` event keeps the world consistent. Its callback runs only after the handle is accounted for. |
| Lifecycle.ExitKeepsConsistent | src/ChildProcessUtilities.js:137-150 | An `exit` event keeps the world consistent. Its callback runs only after the handle is accounted for. |
| Lifecycle.TickKeepsConsistent | src/ChildProcessUtilities.js:96-98 | A turn of the event loop keeps the world consistent. It only adds notifications, never callbacks. |
| Lifecycle.StartIsConsistent | src/ChildProcessUtilities.js:9-10 | Module load, with no children and a zero counter, is consistent. |
| Lifecycle.ReachableIsConsistent | src/ChildProcessUtilities.js:72-104 | In every world reachable from module load, the reported child count is the number of live handles and is never negative. |
| Lifecycle.RunKeepsConsistent | src/ChildProcessUtilities.js:81-104 | From a consistent world, after any sequence of events the counter equals the number of live handles and is never negative. Every callback that has run belongs to a handle already accounted for. |
| Lifecycle.LaunchesRegisterOnce | src/ChildProcessUtilities.js:125-127 | N launches raise the live count by exactly N. They add N live handles and post nothing. |
| Lifecycle.TerminationIsBookKeep | src/ChildProcessUtilities.js:129-153 | In a consistent world, an `error` or `exit` event for an issued handle acts on the registry exactly as that handle's bookKeeper does. This holds with or without a callback and whether or not its handler is left. |
| Lifecycle.TerminationsAreBookKeeping | src/ChildProcessUtilities.js:129-153 | A run of `error` and `exit` events acts on the registry as the bookKeepers of the same handles called in the same order. |
| Lifecycle.AllExitedPostedOnce | src/ChildProcessUtilities.js:94-99 | While children are live, any run of `error` and `exit` events posts exactly one "empty" task when it accounts for every child and none otherwise. |
| Lifecycle.AllExitedNotifiesEachListenerOnce | src/ChildProcessUtilities.js:76-98 | For a run of `error` and `exit` events that begins with nothing posted: once the last child has finished, the next turn tells each listener "empty" once and later turns tell nobody. While a child is still live at the end of such a run, turns tell nobody. |
| Lifecycle.StreamingColourIsLiveCount | src/ChildProcessUtilities.js:53-55 | A streaming launch's colour is wheel entry `live count mod 6` for the count before registration. |
| Lifecycle.BackToBackStreamingColours | src/ChildProcessUtilities.js:53 | Two streaming launches with no exit between them get consecutive, hence different, colours. |
| Lifecycle.StreamingInheritThrowsAfterRegistering | src/ChildProcessUtilities.js:53-67 | `spawnStreaming` with a caller `stdio: "inherit"` throws for lack of a stdout to pipe. It does so only after the child is registered, so the child stays counted as live. |
| Lifecycle.StreamingDefaultsDoNotThrow | src/ChildProcessUtilities.js:48-67 | With its default `stdio`, a streaming launch in a consistent world logs no throw. |
| Scenarios.KilledExecReportsSignal | src/ChildProcessUtilities.js:137-142 | A default `exec` child killed by a signal reports that signal and a `null` code. Its stdout is `null` because stdout is not piped, and its stderr is its drained text. |
| Scenarios.ColourRepeatsAfterExit | src/ChildProcessUtilities.js:53 | A streaming launch after the first streaming child has exited gets that child's colour, cyan. |
| Scenarios.QuietExecsRegister | src/ChildProcessUtilities.js:27-33 | Default `exec` launches raise the count by their number. Each adds one live handle, and they log nothing. |
| Scenarios.QuietExecsAppendChildren | src/ChildProcessUtilities.js:27-33 | Default `exec` launches append one child each, in order, each without stdout and with the callback flag asked for. |
| Scenarios.ScenarioLaunches | src/ChildProcessUtilities.js:27-33 | Four default `exec` launches from module load, the middle two with callbacks, leave four live handles and an empty log. |
| Scenarios.FourLaunchesThenAllExited | src/ChildProcessUtilities.js:76-150 | Four `exec` launches (two with callbacks), one listener, four clean exits and two turns log exactly: two no-argument callbacks, then one "empty" notification. |
| Scenarios.PipedExecHandsOverStdout | src/ChildProcessUtilities.js:143-146 | `exec` with `stdio: "pipe"` and a callback calls back `(null, stdout)` on a clean exit and returns the count to where it was. |
| Scenarios.StaleEmptyWhileLive | src/ChildProcessUtilities.js:94-98 | The posted broadcast does not check the count again when it runs. A child launched after the drain, but before the next turn, is live while the listener still hears "empty". |
| Scenarios.ErrorThenExitCallsBackTwice | src/ChildProcessUtilities.js:131-150 | A child that reports `error` and then `exit` is counted down once. Its callback runs twice: first with the annotated error, then with the exit's classification. |

## Left out

- `execSync` (src/ChildProcessUtilities.js:36-38) and the `execa` call inside `_spawn`: both are the OS process launcher. The model assumes the launch call itself returns a child and does not throw.
- The failure message naming the command that could not start: `execa` produces it. The model takes the `error` object as an input.
- Stream draining with `get-stream` and trailing end-of-line removal with `strip-eof`: library behaviour. The drained text is an opaque input of each launch.
- The resolved or rejected value of the promise `_spawn` returns without a callback: it is `execa`'s. The model keeps only that `pFinally` (src/ChildProcessUtilities.js:152) runs `didFinish` for such a child. It counts the child down at its first `error` or `exit` event, although `execa`'s promise may settle later than that.
- Prefix piping through `strong-log-transformer`, the `chalk` styling, and the `setMaxListeners` adjustment on `process.stdout` and `process.stderr` (src/ChildProcessUtilities.js:57-67): stream plumbing on global I/O objects. Only the colour choice and the throw from piping an absent stream are modelled.
- Scenarios.ErrorThenExitCallsBackTwice: both callbacks carry the same full drained text of each stream, in event order. This follows from treating a stream's drained text as one input per launch and logging a callback at the event that causes it. In Node the two `readStream` calls share the same `child.stdout` and `child.stderr` (src/ChildProcessUtilities.js:116-117, 144), and the model does not describe what a second read of an already drained stream yields, or in which order the two reads complete.
- Event-loop timing beyond "posted, then run on a later turn": the callback of an annotated error waits on two stream reads (src/ChildProcessUtilities.js:115-122), and the clean-exit `(null, stdout)` callback waits on the stdout read (src/ChildProcessUtilities.js:144-146). The model logs both at the event that causes them, while "empty" goes through the `setImmediate` queue.
- An `error` event arriving after the `once` handler is spent: Node's handling of an `error` event with no listener is outside the model. The model treats the event as having no effect.
- Launching.HasStream: it does not model every `stdio` form Node accepts, such as streams, numbers or `"overlapped"`. Anything other than `"pipe"`, unset or `null` is taken to give no stream. A whole `stdio` value that is neither a string, an array, `null` nor unset, which Node rejects, is likewise taken to give no streams.

=== FILE: js_values.dfy ===
/** The slice of JavaScript's value world that the child-process utilities touch:
    option bags passed to the launcher, error objects handed to callbacks, and
    the `null`/`undefined` distinction those objects carry.
 */
module JsValues {

  /** A value that may be JavaScript `null`/`undefined` (None) or present (Some). */
  datatype Option<+T> = None | Some(value: T)

  /** A JavaScript value as far as this core inspects one. */
  datatype Value =
    | Undefined
    | Null
    | Num(n: int)
    | Str(s: string)
    | Arr(items: seq<Value>)

  /** A plain object: its own enumerable properties, by name. */
  type Obj = map<string, Value>

  /** `Object.assign(target, source)`: a `null` or `undefined` source adds nothing;
      otherwise every own property of `source` is copied over `target`'s, an
      explicit `undefined` included. */
  function Assign(target: Obj, source: Option<Obj>): (r: Obj)
    ensures source.None? ==> r == target
    ensures source.Some? ==> r.Keys == target.Keys + source.value.Keys
    ensures source.Some? ==> forall k :: k in source.value ==> k in r && r[k] == source.value[k]
    ensures forall k :: k in target && (source.None? || k !in source.value) ==> k in r && r[k] == target[k]
  {
    match source
    case None => target
    case Some(s) => target + s
  }

  /** A JavaScript number-or-null, as Node reports an exit code. */
  function NullableNum(x: Option<int>): (v: Value)
    ensures v == Null <==> x.None?
    ensures x.Some? ==> v == Num(x.value)
  {
    match x
    case None => Null
    case Some(n) => Num(n)
  }

  /** A JavaScript string-or-null, as Node reports a signal name or a drained stream. */
  function NullableStr(x: Option<string>): (v: Value)
    ensures v == Null <==> x.None?
    ensures x.Some? ==> v == Str(x.value)
  {
    match x
    case None => Null
    case Some(s) => Str(s)
  }
}

=== FILE: launching.dfy ===
/** The pure parts of launching a child: the default `stdio` of each entry
    point and how caller options override it, which streams the child then
    has, the prefix colour of a streaming child, and how an `exit` or `error`
    event turns into the arguments of the caller's callback.
 */
module Launching {
  import opened JsValues

  /** The three entry points; `Streaming` carries the prefix label. */
  datatype Mode = Exec | Spawn | Streaming(prefix: string)

  const Ignore := Str("ignore")
  const Pipe := Str("pipe")
  const Inherit := Str("inherit")

  /** The option object each entry point starts from before the caller's options are copied over it. */
  function DefaultOptions(mode: Mode): (o: Obj)
    ensures o.Keys == {"stdio"}
    ensures mode.Spawn? ==> o["stdio"] == Inherit
    ensures mode.Exec? ==> (o["stdio"].Arr? && |o["stdio"].items| == 3
      && StdioEntry(o["stdio"], 0) == Ignore && StdioEntry(o["stdio"], 1) == Ignore
      && StdioEntry(o["stdio"], 2) == Pipe)
    ensures mode.Streaming? ==> (o["stdio"].Arr? && |o["stdio"].items| == 3
      && StdioEntry(o["stdio"], 0) == Ignore && StdioEntry(o["stdio"], 1) == Pipe
      && StdioEntry(o["stdio"], 2) == Pipe)
  {
    match mode
    case Exec => map["stdio" := Arr([Ignore, Ignore, Pipe])]
    case Spawn => map["stdio" := Inherit]
    case Streaming(_) => map["stdio" := Arr([Ignore, Pipe, Pipe])]
  }

  /** `Object.assign({stdio: <default>}, opts)` in `exec`, `spawn` and
      `spawnStreaming`: a caller's `stdio` (even an explicit `undefined`)
      replaces the default, a `null` or absent option object keeps it, and
      every other caller option passes through untouched. */
  function LaunchOptions(mode: Mode, opts: Option<Obj>): (r: Obj)
    ensures "stdio" in r
    ensures opts.Some? && "stdio" in opts.value ==> r["stdio"] == opts.value["stdio"]
    ensures opts.None? || "stdio" !in opts.value ==> r["stdio"] == DefaultOptions(mode)["stdio"]
    ensures forall k :: k != "stdio" ==> (k in r <==> opts.Some? && k in opts.value)
    ensures opts.Some? ==> forall k :: k in opts.value ==> r[k] == opts.value[k]
  {
    Assign(DefaultOptions(mode), opts)
  }

  /** The setting of descriptor `fd` (0 stdin, 1 stdout, 2 stderr) that a
      `stdio` option value denotes: a string applies to all three, an array
      gives one entry per descriptor, and a missing entry is left unset. */
  function StdioEntry(stdio: Value, fd: nat): Value {
    match stdio
    case Str(_) => stdio
    case Arr(xs) => if fd < |xs| then xs[fd] else Undefined
    case Undefined => Undefined
    case Null => Undefined
    case _ => stdio
  }

  /** Whether the child object exposes a stream for descriptor `fd`: the
      setting is "pipe", or unset, which Node's child_process treats as "pipe". */
  predicate HasStream(options: Obj, fd: nat) {
    var e := StdioEntry(if "stdio" in options then options["stdio"] else Undefined, fd);
    fd < 3 && (e == Pipe || e == Undefined || e == Null)
  }

  /** What a child's stdout and stderr drain to: absent (`null` on the child
      object) or the text a full read produces, trailing end-of-line already
      stripped. The text itself is an input to the model. */
  datatype Streams = Streams(stdout: Option<string>, stderr: Option<string>)

  /** The streams a child launched with `options` has, given the text its
      stdout and stderr would produce. */
  function ChildStreams(options: Obj, stdoutText: string, stderrText: string): (s: Streams)
    ensures s.stdout.Some? <==> HasStream(options, 1)
    ensures s.stderr.Some? <==> HasStream(options, 2)
    ensures s.stdout.Some? ==> s.stdout.value == stdoutText
    ensures s.stderr.Some? ==> s.stderr.value == stderrText
  {
    Streams(if HasStream(options, 1) then Some(stdoutText) else None,
            if HasStream(options, 2) then Some(stderrText) else None)
  }

  /** Without a caller `stdio`, `exec` pipes only stderr, `spawn` inherits all
      three descriptors and `spawnStreaming` pipes stdout and stderr. */
  lemma DefaultWiring(mode: Mode, opts: Option<Obj>)
    requires opts.None? || "stdio" !in opts.value
    ensures var o := LaunchOptions(mode, opts);
      && !HasStream(o, 0)
      && (HasStream(o, 1) <==> mode.Streaming?)
      && (HasStream(o, 2) <==> !mode.Spawn?)
  {
  }

  /** A caller's `stdio: "pipe"` gives the child all three streams, whatever the entry point. */
  lemma CallerPipeWins(mode: Mode, opts: Obj)
    requires "stdio" in opts && opts["stdio"] == Pipe
    ensures forall fd :: 0 <= fd < 3 ==> HasStream(LaunchOptions(mode, Some(opts)), fd)
  {
  }

  /** The prefix colours, in the order of `colorWheel`. */
  datatype Colour = Cyan | Magenta | Blue | Yellow | Green | Red

  const ColourWheel: seq<Colour> := [Cyan, Magenta, Blue, Yellow, Green, Red]

  /** `NUM_COLORS`. */
  const NumColours := |ColourWheel|

  /** JavaScript's `%`: the remainder of division truncated toward zero, so
      it takes the sign of the dividend. */
  function JsRemainder(a: int, b: int): (r: int)
    requires b > 0
    ensures a >= 0 ==> 0 <= r < b && r == a % b
    ensures a < 0 ==> -b < r <= 0
  {
    if a >= 0 then a % b else -((-a) % b)
  }

  /** Truncating toward zero treats a dividend and its negation alike:
      negating the dividend negates the remainder. */
  lemma JsRemainderOdd(a: int, b: int)
    requires b > 0
    ensures JsRemainder(-a, b) == -JsRemainder(a, b)
  {
  }

  /** `colorWheel[children % NUM_COLORS]`: a colour, or None for the
      `undefined` an out-of-range index would read. */
  function WheelColour(children: int): (c: Option<Colour>)
    ensures c.Some? <==> children >= 0 || children % NumColours == 0
    ensures children >= 0 ==> c == Some(ColourWheel[children % NumColours])
  {
    var i := JsRemainder(children, NumColours);
    if 0 <= i < NumColours then Some(ColourWheel[i]) else None
  }

  /** Two streaming launches whose live counts differ by one get different colours. */
  lemma AdjacentCountsGetDifferentColours(k: nat)
    ensures WheelColour(k).Some? && WheelColour(k + 1).Some?
    ensures WheelColour(k) != WheelColour(k + 1)
  {
    var i, j := k % NumColours, (k + 1) % NumColours;
    assert j == if i == NumColours - 1 then 0 else i + 1;
  }

  /** The wheel has period six: colours repeat exactly every six children. */
  lemma WheelRepeatsEverySix(k: nat, m: nat)
    ensures WheelColour(k) == WheelColour(k + m) <==> m % NumColours == 0
  {
    var i, j := k % NumColours, (k + m) % NumColours;
    assert j == (i + m % NumColours) % NumColours;
    if ColourWheel[i] == ColourWheel[j] {
      assert i == j;
    }
  }

  /** `readStream`: an absent stream reads as `null`, a present one as its text. */
  function ReadStream(s: Option<string>): (v: Value)
    ensures v == Null <==> s.None?
    ensures s.Some? ==> v == Str(s.value)
  {
    NullableStr(s)
  }

  /** `annotateError`: the error object gains `stdout` and `stderr` holding
      what the child's streams drained to, and keeps every other field. */
  function Annotate(error: Obj, streams: Streams): (r: Obj)
    ensures r.Keys == error.Keys + {"stdout", "stderr"}
    ensures r["stdout"] == ReadStream(streams.stdout) && r["stderr"] == ReadStream(streams.stderr)
    ensures forall k :: k in error && k != "stdout" && k != "stderr" ==> r[k] == error[k]
  {
    error["stdout" := ReadStream(streams.stdout)]["stderr" := ReadStream(streams.stderr)]
  }

  /** An `exec` child with default options pipes only stderr, so an error
      annotated from it carries a `null` stdout and the stderr text. */
  lemma DefaultExecAnnotatesStderrOnly(error: Obj, out: string, err: string)
    ensures var r := Annotate(error, ChildStreams(LaunchOptions(Exec, None), out, err));
      r["stdout"] == Null && r["stderr"] == Str(err)
  {
    DefaultWiring(Exec, None);
  }

  /** How the caller's callback is invoked. */
  datatype Call =
    | ErrorCall(error: Obj)       // callback(error)
    | ResultCall(stdout: Value)   // callback(null, stdout)
    | BareCall                    // callback()

  /** The error object `_spawn` synthesises for an abnormal exit: `{ code, signal }`. */
  function ExitError(code: Option<int>, signal: Option<string>): (e: Obj)
    ensures e.Keys == {"code", "signal"}
    ensures e["code"] == NullableNum(code) && e["signal"] == NullableStr(signal)
  {
    map["code" := NullableNum(code), "signal" := NullableStr(signal)]
  }

  /** `code !== 0 || signal !== null`: a signal, a non-zero code, or a `null` code is a failure. */
  predicate ExitFailed(code: Option<int>, signal: Option<string>) {
    code != Some(0) || signal.Some?
  }

  /** An exit is clean exactly when the code is the number 0 and no signal is
      reported; a `null` code (the child was killed) is never clean. */
  lemma ExitFailedCases(code: Option<int>, signal: Option<string>)
    ensures !ExitFailed(code, signal) <==> NullableNum(code) == Num(0) && NullableStr(signal) == Null
    ensures code.None? ==> ExitFailed(code, signal)
  {
  }

  /** The callback the `exit` handler makes: a failure is annotated with the
      drained streams; a clean exit hands over stdout when it is piped and
      calls back with no arguments otherwise. */
  function ExitCall(code: Option<int>, signal: Option<string>, streams: Streams): (c: Call)
    ensures c.ErrorCall? <==> ExitFailed(code, signal)
    ensures c.ErrorCall? ==> c.error == Annotate(ExitError(code, signal), streams)
    ensures !ExitFailed(code, signal) && streams.stdout.Some? ==> c == ResultCall(Str(streams.stdout.value))
    ensures !ExitFailed(code, signal) && streams.stdout.None? ==> c == BareCall
  {
    if ExitFailed(code, signal) then ErrorCall(Annotate(ExitError(code, signal), streams))
    else if streams.stdout.Some? then ResultCall(ReadStream(streams.stdout))
    else BareCall
  }

  /** The callback the `error` handler makes: always the annotated error. */
  function ErrorEventCall(error: Obj, streams: Streams): (c: Call)
    ensures c.ErrorCall? && c.error.Keys == error.Keys + {"stdout", "stderr"}
    ensures c.error["stdout"] == ReadStream(streams.stdout) && c.error["stderr"] == ReadStream(streams.stderr)
    ensures forall k :: k in error && k != "stdout" && k != "stderr" ==> c.error[k] == error[k]
  {
    ErrorCall(Annotate(error, streams))
  }

  /** A failed exit's error keeps the code and signal and carries the drained
      output, `null` for a stream the child does not have. */
  lemma FailedExitCarriesEverything(code: Option<int>, signal: Option<string>, streams: Streams)
    requires ExitFailed(code, signal)
    ensures var c := ExitCall(code, signal, streams);
      && c.ErrorCall?
      && c.error.Keys == {"code", "signal", "stdout", "stderr"}
      && c.error["code"] == NullableNum(code) && c.error["signal"] == NullableStr(signal)
      && (c.error["stdout"] == Null <==> streams.stdout.None?)
      && (c.error["stderr"] == Null <==> streams.stderr.None?)
  {
  }
}

=== FILE: lifecycle.dfy ===
/** The child-process utilities as a state machine: the registry, the child
    handles `_spawn` has returned, and a log of what callers observe, stepped
    by the calls callers make and the events children and the event loop
    deliver.
 */
module Lifecycle {
  import opened JsValues
  import opened LiveChildren
  import opened Launching

  /** A handle returned by `_spawn`, with what its event handlers need. */
  datatype Child = Child(
    mode: Mode,
    streams: Streams,
    colour: Option<Colour>,   // spawnStreaming only: the prefix colour it chose
    withCallback: bool,       // a callback was passed, so handlers were attached
    onError: bool,            // the `once("error")` handler is still attached
    onExit: bool)             // the `once("exit")` handler is still attached

  /** What a caller can see happen. */
  datatype Observation =
    | Called(h: Handle, call: Call)   // the callback of launch `h` ran
    | Threw(h: Handle)                // spawnStreaming threw after registering `h`
    | Notified(l: Listener)           // an onAllExited listener received "empty"

  datatype World = World(reg: Registry, children: seq<Child>, log: seq<Observation>)

  /** Module load: nothing launched, nothing observed. */
  const Start := World(Initial, [], [])

  /** What can happen next: a caller launches or subscribes, a child reports
      `error` or `exit`, or the event loop runs a `setImmediate` task. */
  datatype Event =
    | Launch(mode: Mode, opts: Option<Obj>, withCallback: bool, stdoutText: string, stderrText: string)
    | ProcessError(h: Handle, error: Obj)
    | ProcessExit(h: Handle, code: Option<int>, signal: Option<string>)
    | Subscribe(l: Listener)
    | Tick

  /** The state every reachable world keeps: the registry counts exactly the
      live handles, there is one child per handle, a handle whose `error` or
      `exit` handler has run is accounted for, and so is every handle whose
      callback has been called. */
  predicate Consistent(w: World) {
    && Valid(w.reg)
    && |w.children| == |w.reg.accounted|
    && (forall h :: 0 <= h < |w.children| && w.children[h].withCallback && !(w.children[h].onError && w.children[h].onExit) ==> w.reg.accounted[h])
    && (forall i :: 0 <= i < |w.log| && w.log[i].Called? ==> w.log[i].h < |w.reg.accounted| && w.reg.accounted[w.log[i].h])
  }

  /** `exec`, `spawn` and `spawnStreaming`: merge the options, pick the prefix
      colour from the live count before `_spawn` registers the child, register
      it, and attach handlers when a callback is given. `spawnStreaming` then
      throws if the child lacks stdout or stderr to pipe, or has no colour. */
  function LaunchChild(w: World, mode: Mode, opts: Option<Obj>, withCallback: bool,
                       stdoutText: string, stderrText: string): (res: (World, Handle))
    ensures (res.0.reg, res.1) == Register(w.reg)
    ensures |res.0.children| == |w.children| + 1 && res.0.children[..|w.children|] == w.children
    ensures res.0.children[|w.children|].streams == ChildStreams(LaunchOptions(mode, opts), stdoutText, stderrText)
    ensures res.0.children[|w.children|].colour == (if mode.Streaming? then WheelColour(w.reg.count) else None)
    ensures res.0.children[|w.children|].withCallback == withCallback
    ensures res.0.children[|w.children|].onError == res.0.children[|w.children|].onExit == withCallback
    ensures res.0.children[|w.children|].mode == mode
    ensures res.0.log == if mode.Streaming? && (WheelColour(w.reg.count).None?
                                               || !HasStream(LaunchOptions(mode, opts), 1)
                                               || !HasStream(LaunchOptions(mode, opts), 2))
                         then w.log + [Threw(res.1)] else w.log
  {
    var options := LaunchOptions(mode, opts);
    var colour := if mode.Streaming? then WheelColour(w.reg.count) else None;
    var (reg, h) := Register(w.reg);
    var streams := ChildStreams(options, stdoutText, stderrText);
    var child := Child(mode, streams, colour, withCallback, withCallback, withCallback);
    var threw := mode.Streaming? && (colour.None? || streams.stdout.None? || streams.stderr.None?);
    var log := if threw then w.log + [Threw(h)] else w.log;
    assert (w.children + [child])[..|w.children|] == w.children;
    (World(reg, w.children + [child], log), h)
  }

  /** Whether `h` names a handle the world has issued. */
  predicate Known(w: World, h: Handle) {
    h < |w.children| && h < |w.reg.accounted|
  }

  /** A child's `error` event: with a callback, the `once` handler runs
      `didFinish()` and then calls back with the annotated error; without one,
      the settled promise runs `didFinish`. */
  function OnError(w: World, h: Handle, error: Obj): (w': World)
    ensures !Known(w, h) ==> w' == w
    ensures |w'.children| == |w.children| && |w'.reg.accounted| == |w.reg.accounted|
    ensures Known(w, h) && (!w.children[h].withCallback || w.children[h].onError) ==> w'.reg == BookKeep(w.reg, h)
    ensures Known(w, h) && w.children[h].withCallback && !w.children[h].onError ==> w' == w
    ensures Known(w, h) && w.children[h].withCallback && w.children[h].onError ==>
      w'.children == w.children[h := w.children[h].(onError := false)]
    ensures !(Known(w, h) && w.children[h].withCallback && w.children[h].onError) ==> w'.children == w.children
    ensures Known(w, h) && w.children[h].withCallback && w.children[h].onError ==>
      w'.log == w.log + [Called(h, ErrorEventCall(error, w.children[h].streams))]
    ensures !(Known(w, h) && w.children[h].withCallback && w.children[h].onError) ==> w'.log == w.log
  {
    if !Known(w, h) then w
    else
      var c := w.children[h];
      if !c.withCallback then w.(reg := BookKeep(w.reg, h))
      else if !c.onError then w
      else
        var reg := BookKeep(w.reg, h);
        var call := ErrorEventCall(error, c.streams);
        World(reg, w.children[h := c.(onError := false)], w.log + [Called(h, call)])
  }

  /** A child's `exit(code, signal)` event: with a callback, the `once`
      handler runs `didFinish()` and then calls back as the exit is
      classified; without one, the settled promise runs `didFinish`. */
  function OnExit(w: World, h: Handle, code: Option<int>, signal: Option<string>): (w': World)
    ensures !Known(w, h) ==> w' == w
    ensures |w'.children| == |w.children| && |w'.reg.accounted| == |w.reg.accounted|
    ensures Known(w, h) && (!w.children[h].withCallback || w.children[h].onExit) ==> w'.reg == BookKeep(w.reg, h)
    ensures Known(w, h) && w.children[h].withCallback && !w.children[h].onExit ==> w' == w
    ensures Known(w, h) && w.children[h].withCallback && w.children[h].onExit ==>
      w'.children == w.children[h := w.children[h].(onExit := false)]
    ensures !(Known(w, h) && w.children[h].withCallback && w.children[h].onExit) ==> w'.children == w.children
    ensures Known(w, h) && w.children[h].withCallback && w.children[h].onExit ==>
      w'.log == w.log + [Called(h, ExitCall(code, signal, w.children[h].streams))]
    ensures !(Known(w, h) && w.children[h].withCallback && w.children[h].onExit) ==> w'.log == w.log
  {
    if !Known(w, h) then w
    else
      var c := w.children[h];
      if !c.withCallback then w.(reg := BookKeep(w.reg, h))
      else if !c.onExit then w
      else
        var reg := BookKeep(w.reg, h);
        var call := ExitCall(code, signal, c.streams);
        World(reg, w.children[h := c.(onExit := false)], w.log + [Called(h, call)])
  }

  /** One "empty" notification per listener, in subscription order. */
  function Notices(ls: seq<Listener>): (ns: seq<Observation>)
    ensures |ns| == |ls| && forall i :: 0 <= i < |ls| ==> ns[i] == Notified(ls[i])
  {
    seq(|ls|, i requires 0 <= i < |ls| => Notified(ls[i]))
  }

  /** The event loop runs the oldest `setImmediate` task, if any: every
      current listener is told "empty", in subscription order. */
  function RunTick(w: World): (w': World)
    ensures |w.reg.pending| == 0 ==> w' == w
    ensures |w.reg.pending| > 0 ==>
      w'.reg.pending == w.reg.pending[1..] && w'.log == w.log + Notices(w.reg.listeners)
    ensures w'.children == w.children && w'.reg.accounted == w.reg.accounted && w'.reg.count == w.reg.count
    ensures w'.reg.listeners == w.reg.listeners
  {
    var (reg, ls) := RunImmediate(w.reg);
    World(reg, w.children, w.log + Notices(ls))
  }

  /** One event: a launch or subscription by a caller, an `error` or `exit`
      from a child, or a turn of the event loop. Only a launch registers a
      child; a child event for a handle already accounted for leaves the
      registry alone; a subscription and a turn leave the children alone. */
  function Step(w: World, e: Event): (w': World)
    ensures e.Launch? ==> (|w'.children| == |w.children| + 1 && w'.reg.count == w.reg.count + 1
      && |w'.reg.accounted| == |w.reg.accounted| + 1)
    ensures !e.Launch? ==> |w'.children| == |w.children| && |w'.reg.accounted| == |w.reg.accounted|
    ensures (e.ProcessError? || e.ProcessExit?) && Known(w, e.h) && w.reg.accounted[e.h] ==> w'.reg == w.reg
    ensures (e.ProcessError? || e.ProcessExit?) ==> w'.reg.listeners == w.reg.listeners
    ensures e.Subscribe? ==> w'.reg == OnAllExited(w.reg, e.l) && w'.children == w.children && w'.log == w.log
    ensures e.Tick? ==> w'.children == w.children && w'.reg.accounted == w.reg.accounted
  {
    match e
    case Launch(mode, opts, cb, out, err) => LaunchChild(w, mode, opts, cb, out, err).0
    case ProcessError(h, error) => OnError(w, h, error)
    case ProcessExit(h, code, signal) => OnExit(w, h, code, signal)
    case Subscribe(l) => w.(reg := OnAllExited(w.reg, l))
    case Tick => RunTick(w)
  }

  function Run(w: World, es: seq<Event>): World
    decreases |es|
  {
    if |es| == 0 then w else Run(Step(w, es[0]), es[1..])
  }

  lemma LaunchKeepsConsistent(w: World, mode: Mode, opts: Option<Obj>, cb: bool, out: string, err: string)
    requires Consistent(w)
    ensures Consistent(LaunchChild(w, mode, opts, cb, out, err).0)
  {
    var w' := LaunchChild(w, mode, opts, cb, out, err).0;
    forall h | 0 <= h < |w.children|
      ensures w'.children[h] == w.children[h]
    {
      assert w'.children[h] == w'.children[..|w.children|][h];
    }
  }

  lemma ErrorKeepsConsistent(w: World, h: Handle, error: Obj)
    requires Consistent(w)
    ensures Consistent(OnError(w, h, error))
  {
  }

  lemma ExitKeepsConsistent(w: World, h: Handle, code: Option<int>, signal: Option<string>)
    requires Consistent(w)
    ensures Consistent(OnExit(w, h, code, signal))
  {
  }

  lemma TickKeepsConsistent(w: World)
    requires Consistent(w)
    ensures Consistent(RunTick(w))
  {
    var w' := RunTick(w);
    assert forall i :: |w.log| <= i < |w'.log| ==> w'.log[i] == Notices(w.reg.listeners)[i - |w.log|];
  }

  /** Every kind of event keeps the world consistent. */
  lemma StepKeepsConsistent(w: World, e: Event)
    requires Consistent(w)
    ensures Consistent(Step(w, e))
  {
    match e
    case Launch(mode, opts, cb, out, err) => LaunchKeepsConsistent(w, mode, opts, cb, out, err);
    case ProcessError(h, error) => ErrorKeepsConsistent(w, h, error);
    case ProcessExit(h, code, signal) => ExitKeepsConsistent(w, h, code, signal);
    case Subscribe(l) =>
    case Tick => TickKeepsConsistent(w);
  }

  /** Whatever callers and children do, the world stays consistent: in
      particular the live count is never negative and every callback that has
      run belongs to a handle already accounted for. */
  lemma {:induction false} RunKeepsConsistent(w: World, es: seq<Event>)
    requires Consistent(w)
    ensures Consistent(Run(w, es))
    ensures ChildProcessCount(Run(w, es).reg) >= 0
    decreases |es|
  {
    if |es| > 0 {
      StepKeepsConsistent(w, es[0]);
      RunKeepsConsistent(Step(w, es[0]), es[1..]);
    }
  }

  /** Module load is consistent: no children, a zero counter, an empty log. */
  lemma StartIsConsistent()
    ensures Consistent(Start)
  {
  }

  /** Every world reachable from module load is consistent, so the reported
      child count is the number of live handles and never negative. */
  lemma ReachableIsConsistent(es: seq<Event>)
    ensures Consistent(Run(Start, es))
    ensures ChildProcessCount(Run(Start, es).reg) == LiveCount(Run(Start, es).reg.accounted) >= 0
  {
    StartIsConsistent();
    RunKeepsConsistent(Start, es);
  }

  predicate IsLaunch(e: Event) {
    e.Launch?
  }

  /** Each launch registers exactly once: after N launches and nothing else,
      the live count has grown by N and the N new handles are all live. */
  lemma {:induction false} LaunchesRegisterOnce(w: World, es: seq<Event>)
    requires forall i :: 0 <= i < |es| ==> IsLaunch(es[i])
    ensures Run(w, es).reg.count == w.reg.count + |es|
    ensures |Run(w, es).children| == |w.children| + |es|
    ensures Run(w, es).reg.pending == w.reg.pending
    ensures |Run(w, es).reg.accounted| == |w.reg.accounted| + |es|
    ensures forall h :: 0 <= h < |w.reg.accounted| ==> Run(w, es).reg.accounted[h] == w.reg.accounted[h]
    ensures forall h :: |w.reg.accounted| <= h < |w.reg.accounted| + |es| ==> !Run(w, es).reg.accounted[h]
    decreases |es|
  {
    if |es| > 0 {
      var w1 := Step(w, es[0]);
      assert forall i :: 0 <= i < |es| - 1 ==> es[1..][i] == es[i + 1];
      LaunchesRegisterOnce(w1, es[1..]);
    }
  }

  /** A child event's effect on the registry is its bookKeeper call, whichever
      handler runs or whether any handler is left: a consumed `once` handler
      means the handle is already accounted for. */
  lemma TerminationIsBookKeep(w: World, e: Event)
    requires Consistent(w)
    requires e.ProcessError? || e.ProcessExit?
    requires Known(w, e.h)
    ensures Step(w, e).reg == BookKeep(w.reg, e.h)
  {
  }

  /** The handles a sequence of child events names. */
  function Handles(es: seq<Event>): (hs: seq<Handle>)
    requires forall i :: 0 <= i < |es| ==> es[i].ProcessError? || es[i].ProcessExit?
    ensures |hs| == |es| && forall i :: 0 <= i < |es| ==> hs[i] == es[i].h
  {
    if |es| == 0 then [] else [es[0].h] + Handles(es[1..])
  }

  /** A run of `error` and `exit` events for issued handles acts on the
      registry exactly as their bookKeepers called in the same order. */
  lemma {:induction false} TerminationsAreBookKeeping(w: World, es: seq<Event>)
    requires Consistent(w)
    requires forall i :: 0 <= i < |es| ==> (es[i].ProcessError? || es[i].ProcessExit?) && Known(w, es[i].h)
    ensures Consistent(Run(w, es))
    ensures var hs := Handles(es);
      (forall i :: 0 <= i < |hs| ==> hs[i] < |w.reg.accounted|) && Run(w, es).reg == BookKeepAll(w.reg, hs)
    decreases |es|
  {
    if |es| > 0 {
      var w1 := Step(w, es[0]);
      TerminationIsBookKeep(w, es[0]);
      StepKeepsConsistent(w, es[0]);
      var rest := es[1..];
      assert |w1.children| == |w.children| && |w1.reg.accounted| == |w.reg.accounted|;
      assert forall i :: 0 <= i < |rest| ==> rest[i] == es[i + 1];
      assert Handles(es)[1..] == Handles(rest);
      TerminationsAreBookKeeping(w1, rest);
    }
  }

  /** While children are live, any run of `error` and `exit` events posts
      exactly one "empty" broadcast once every child is accounted for, and
      none before. */
  lemma AllExitedPostedOnce(w: World, es: seq<Event>)
    requires Consistent(w) && w.reg.count > 0
    requires forall i :: 0 <= i < |es| ==> (es[i].ProcessError? || es[i].ProcessExit?) && Known(w, es[i].h)
    ensures var w' := Run(w, es);
      && (w'.reg.count == 0 <==> forall h :: 0 <= h < |w'.reg.accounted| ==> w'.reg.accounted[h])
      && w'.reg.pending == w.reg.pending + (if w'.reg.count == 0 then [EmitEmpty] else [])
  {
    TerminationsAreBookKeeping(w, es);
    EmptyPostedOncePerDrain(w.reg, Handles(es));
  }

  /** A streaming launch takes its colour from the live count before registration. */
  lemma StreamingColourIsLiveCount(w: World, p: string, opts: Option<Obj>, cb: bool, a: string, b: string)
    requires Consistent(w)
    ensures LaunchChild(w, Streaming(p), opts, cb, a, b).1 == |w.children|
    ensures LaunchChild(w, Streaming(p), opts, cb, a, b).0.reg.count == w.reg.count + 1
    ensures LaunchChild(w, Streaming(p), opts, cb, a, b).0.children[|w.children|].colour
      == Some(ColourWheel[w.reg.count % NumColours])
  {
  }

  /** A launch leaves every earlier child as it was. */
  lemma LaunchKeepsEarlierChild(w: World, mode: Mode, opts: Option<Obj>, cb: bool, a: string, b: string, i: nat)
    requires i < |w.children|
    ensures LaunchChild(w, mode, opts, cb, a, b).0.children[i] == w.children[i]
  {
    var w' := LaunchChild(w, mode, opts, cb, a, b).0;
    assert w'.children[i] == w'.children[..|w.children|][i];
  }

  /** `spawnStreaming` picks its colour from the live count read before it
      registers the child, so with no exit between them two streaming launches
      get adjacent, hence different, colours. */
  lemma BackToBackStreamingColours(w: World, p1: string, p2: string, o1: Option<Obj>, o2: Option<Obj>,
                                   cb1: bool, cb2: bool, a: string, b: string)
    requires Consistent(w)
    ensures var w2 := LaunchChild(LaunchChild(w, Streaming(p1), o1, cb1, a, b).0, Streaming(p2), o2, cb2, a, b).0;
      && w2.children[|w.children|].colour == Some(ColourWheel[w.reg.count % NumColours])
      && w2.children[|w.children| + 1].colour == Some(ColourWheel[(w.reg.count + 1) % NumColours])
      && w2.children[|w.children|].colour != w2.children[|w.children| + 1].colour
  {
    var w1 := LaunchChild(w, Streaming(p1), o1, cb1, a, b).0;
    StreamingColourIsLiveCount(w, p1, o1, cb1, a, b);
    LaunchKeepsConsistent(w, Streaming(p1), o1, cb1, a, b);
    StreamingColourIsLiveCount(w1, p2, o2, cb2, a, b);
    LaunchKeepsEarlierChild(w1, Streaming(p2), o2, cb2, a, b, |w.children|);
    AdjacentCountsGetDifferentColours(w.reg.count);
  }

  /** With its default `stdio`, `spawnStreaming` in a consistent world never
      throws: both streams exist and the colour index is in range. */
  lemma StreamingDefaultsDoNotThrow(w: World, p: string, opts: Option<Obj>, cb: bool, a: string, b: string)
    requires Consistent(w)
    requires opts.None? || "stdio" !in opts.value
    ensures LaunchChild(w, Streaming(p), opts, cb, a, b).0.log == w.log
  {
    DefaultWiring(Streaming(p), opts);
  }

  /** `spawnStreaming` with a caller `stdio: "inherit"` has no stdout to pipe:
      it throws, but only after `_spawn` has registered the child, which stays
      counted as live. */
  lemma StreamingInheritThrowsAfterRegistering(w: World, p: string, opts: Obj, cb: bool, a: string, b: string)
    requires "stdio" in opts && opts["stdio"] == Inherit
    ensures LaunchChild(w, Streaming(p), Some(opts), cb, a, b).0.log == w.log + [Threw(|w.reg.accounted|)]
    ensures LaunchChild(w, Streaming(p), Some(opts), cb, a, b).0.reg.count == w.reg.count + 1
    ensures !LaunchChild(w, Streaming(p), Some(opts), cb, a, b).0.reg.accounted[|w.reg.accounted|]
  {
    assert !HasStream(LaunchOptions(Streaming(p), Some(opts)), 1);
  }

  /** After the last live child finishes, the next turn of the event loop
      tells every listener "empty" once, and later turns tell nobody; while
      any child is still live, no turn tells anybody. */
  lemma AllExitedNotifiesEachListenerOnce(w: World, es: seq<Event>)
    requires Consistent(w) && w.reg.count > 0 && w.reg.pending == []
    requires forall i :: 0 <= i < |es| ==> (es[i].ProcessError? || es[i].ProcessExit?) && Known(w, es[i].h)
    ensures Run(w, es).reg.count != 0 ==> RunTick(Run(w, es)) == Run(w, es)
    ensures Run(w, es).reg.count == 0 ==> RunTick(Run(w, es)).log == Run(w, es).log + Notices(w.reg.listeners)
    ensures Run(w, es).reg.count == 0 ==> RunTick(RunTick(Run(w, es))) == RunTick(Run(w, es))
  {
    AllExitedPostedOnce(w, es);
    TerminationsAreBookKeeping(w, es);
  }

  /** Running two event sequences back to back is running their concatenation. */
  lemma {:induction false} RunAppend(w: World, a: seq<Event>, b: seq<Event>)
    ensures Run(w, a + b) == Run(Run(w, a), b)
    decreases |a|
  {
    if |a| > 0 {
      assert (a + b)[1..] == a[1..] + b;
      RunAppend(Step(w, a[0]), a[1..], b);
    } else {
      assert a + b == b;
    }
  }

  lemma RunSnoc(w: World, es: seq<Event>, e: Event)
    ensures Run(w, es + [e]) == Step(Run(w, es), e)
  {
    RunAppend(w, es, [e]);
  }

  /** A run is the chain of its steps. */
  lemma {:induction false} RunUnfolds(w: World, es: seq<Event>, ws: seq<World>)
    requires |ws| == |es| + 1 && ws[0] == w
    requires forall i :: 0 <= i < |es| ==> ws[i + 1] == Step(ws[i], es[i])
    ensures Run(w, es) == ws[|es|]
    decreases |es|
  {
    if |es| > 0 {
      RunUnfolds(ws[1], es[1..], ws[1..]);
    }
  }
}

=== FILE: live_children.dfy ===
/** The module-wide live-child registry: the `children` counter, one
    `accountedFor` sentinel per `registerChild` call, the `setImmediate` queue
    holding pending "empty" broadcasts, and the `onAllExited` listeners.

    Handles are numbered in registration order, so the sentinel of handle `h`
    is `accounted[h]`.
 */
module LiveChildren {

  type Handle = nat

  /** The identity of a function passed to `onAllExited`. */
  type Listener = nat

  /** A task posted with `setImmediate`; the only one this core posts emits "empty". */
  datatype Immediate = EmitEmpty

  datatype Registry = Registry(
    count: int,                 // the module-level `children` variable
    accounted: seq<bool>,       // accountedFor of each bookKeeper, by handle
    pending: seq<Immediate>,    // posted and not yet run, oldest first
    listeners: seq<Listener>)   // "empty" subscribers, in subscription order

  /** The state at module load: no children, nothing posted, nobody listening. */
  const Initial := Registry(0, [], [], [])

  /** Number of handles whose bookKeeper has not run yet. */
  function LiveCount(flags: seq<bool>): (n: nat)
    ensures n <= |flags|
  {
    if |flags| == 0 then 0
    else LiveCount(flags[..|flags| - 1]) + (if flags[|flags| - 1] then 0 else 1)
  }

  /** No handle is live exactly when every sentinel is set. */
  lemma {:induction false} LiveCountZero(flags: seq<bool>)
    ensures LiveCount(flags) == 0 <==> forall i :: 0 <= i < |flags| ==> flags[i]
    decreases |flags|
  {
    if |flags| > 0 {
      var init := flags[..|flags| - 1];
      LiveCountZero(init);
      assert forall i :: 0 <= i < |init| ==> init[i] == flags[i];
    }
  }

  /** Every handle is live exactly when no sentinel is set. */
  lemma {:induction false} LiveCountFull(flags: seq<bool>)
    ensures LiveCount(flags) == |flags| <==> forall i :: 0 <= i < |flags| ==> !flags[i]
    decreases |flags|
  {
    if |flags| > 0 {
      var init := flags[..|flags| - 1];
      LiveCountFull(init);
      assert forall i :: 0 <= i < |init| ==> init[i] == flags[i];
    }
  }

  /** The registry invariant: the counter is exactly the number of live handles. */
  predicate Valid(r: Registry) {
    r.count == LiveCount(r.accounted)
  }

  lemma LiveCountAppend(flags: seq<bool>, b: bool)
    ensures LiveCount(flags + [b]) == LiveCount(flags) + (if b then 0 else 1)
  {
    assert (flags + [b])[..|flags|] == flags;
  }

  /** Setting one live handle's sentinel removes exactly that handle from the live count. */
  lemma {:induction false} LiveCountAccount(flags: seq<bool>, h: nat)
    requires h < |flags| && !flags[h]
    ensures LiveCount(flags[h := true]) == LiveCount(flags) - 1
    decreases |flags|
  {
    var last := |flags| - 1;
    if h == last {
      assert flags[h := true][..last] == flags[..last];
    } else {
      assert flags[h := true][..last] == flags[..last][h := true];
      LiveCountAccount(flags[..last], h);
    }
  }

  /** `registerChild`: count one more child and hand out a fresh, live handle. */
  function Register(r: Registry): (res: (Registry, Handle))
    ensures res.0.count == r.count + 1
    ensures res.1 == |r.accounted| && |res.0.accounted| == |r.accounted| + 1
    ensures !res.0.accounted[res.1]
    ensures forall i :: 0 <= i < |r.accounted| ==> res.0.accounted[i] == r.accounted[i]
    ensures res.0.pending == r.pending && res.0.listeners == r.listeners
    ensures Valid(r) ==> Valid(res.0)
  {
    LiveCountAppend(r.accounted, false);
    (r.(count := r.count + 1, accounted := r.accounted + [false]), |r.accounted|)
  }

  /** The `bookKeeper` closure of handle `h`: the first call marks the handle
      accounted for and decrements the counter, posting an "empty" broadcast
      when the counter reaches 0; every later call does nothing. */
  function BookKeep(r: Registry, h: Handle): (r': Registry)
    requires h < |r.accounted|
    ensures r.accounted[h] ==> r' == r
    ensures !r.accounted[h] ==> r'.count == r.count - 1
    ensures |r'.accounted| == |r.accounted| && r'.accounted[h]
    ensures forall i :: 0 <= i < |r.accounted| && i != h ==> r'.accounted[i] == r.accounted[i]
    ensures r'.pending == r.pending || r'.pending == r.pending + [EmitEmpty]
    ensures r'.pending != r.pending <==> !r.accounted[h] && r'.count == 0
    ensures r'.listeners == r.listeners
    ensures Valid(r) ==> Valid(r')
  {
    if r.accounted[h] then r
    else
      var count := r.count - 1;
      var pending := if count == 0 then r.pending + [EmitEmpty] else r.pending;
      LiveCountAccount(r.accounted, h);
      Registry(count, r.accounted[h := true], pending, r.listeners)
  }

  /** `getChildProcessCount`. */
  function ChildProcessCount(r: Registry): (n: int)
    ensures Valid(r) ==> n == LiveCount(r.accounted) && 0 <= n <= |r.accounted|
    ensures Valid(r) ==> (n == 0 <==> forall h :: 0 <= h < |r.accounted| ==> r.accounted[h])
  {
    LiveCountZero(r.accounted);
    r.count
  }

  /** `onAllExited`: a standing subscription to every later "empty" broadcast. */
  function OnAllExited(r: Registry, l: Listener): (r': Registry)
    ensures r'.listeners == r.listeners + [l]
    ensures r'.count == r.count && r'.accounted == r.accounted && r'.pending == r.pending
  {
    r.(listeners := r.listeners + [l])
  }

  /** The event loop runs the oldest posted task: emitting "empty" calls every
      listener subscribed at that moment, in subscription order. */
  function RunImmediate(r: Registry): (res: (Registry, seq<Listener>))
    ensures |r.pending| == 0 ==> res == (r, [])
    ensures |r.pending| > 0 ==> res.1 == r.listeners && res.0.pending == r.pending[1..]
    ensures res.0.count == r.count && res.0.accounted == r.accounted && res.0.listeners == r.listeners
  {
    if |r.pending| == 0 then (r, [])
    else (r.(pending := r.pending[1..]), r.listeners)
  }

  /** The registry after the bookKeepers of `hs` are called in order. */
  function BookKeepAll(r: Registry, hs: seq<Handle>): (r': Registry)
    requires forall i :: 0 <= i < |hs| ==> hs[i] < |r.accounted|
    ensures |r'.accounted| == |r.accounted| && r'.listeners == r.listeners
    ensures forall h :: 0 <= h < |r.accounted| && r.accounted[h] ==> r'.accounted[h]
    ensures forall i :: 0 <= i < |hs| ==> r'.accounted[hs[i]]
    ensures forall h :: 0 <= h < |r.accounted| && h !in hs ==> r'.accounted[h] == r.accounted[h]
    ensures Valid(r) ==> Valid(r')
    decreases |hs|
  {
    if |hs| == 0 then r
    else
      var r1 := BookKeepAll(BookKeep(r, hs[0]), hs[1..]);
      assert forall i :: 1 <= i < |hs| ==> hs[1..][i - 1] == hs[i];
      r1
  }

  /** Once every handle is accounted for, bookKeepers change nothing. */
  lemma {:induction false} BookKeepAllAccountedIsNoop(r: Registry, hs: seq<Handle>)
    requires forall i :: 0 <= i < |hs| ==> hs[i] < |r.accounted|
    requires forall h :: 0 <= h < |r.accounted| ==> r.accounted[h]
    ensures BookKeepAll(r, hs) == r
    decreases |hs|
  {
    if |hs| > 0 {
      BookKeepAllAccountedIsNoop(BookKeep(r, hs[0]), hs[1..]);
    }
  }

  /** With children still live, any sequence of bookKeeper calls (repeats
      allowed, as when both `error` and `exit` fire) posts exactly one "empty"
      broadcast if it accounts for every child and none otherwise. */
  lemma {:induction false} EmptyPostedOncePerDrain(r: Registry, hs: seq<Handle>)
    requires Valid(r) && r.count > 0
    requires forall i :: 0 <= i < |hs| ==> hs[i] < |r.accounted|
    ensures var r' := BookKeepAll(r, hs);
      && (r'.count == 0 <==> forall h :: 0 <= h < |r'.accounted| ==> r'.accounted[h])
      && r'.pending == r.pending + (if r'.count == 0 then [EmitEmpty] else [])
    decreases |hs|
  {
    LiveCountZero(BookKeepAll(r, hs).accounted);
    if |hs| > 0 {
      var r1 := BookKeep(r, hs[0]);
      assert forall i :: 0 <= i < |hs| - 1 ==> hs[1..][i] == hs[i + 1];
      if r1.count == 0 {
        LiveCountZero(r1.accounted);
        BookKeepAllAccountedIsNoop(r1, hs[1..]);
      } else {
        EmptyPostedOncePerDrain(r1, hs[1..]);
      }
    }
  }

  /** The registry after `n` calls to `registerChild`. */
  function RegisterMany(r: Registry, n: nat): Registry
    decreases n
  {
    if n == 0 then r else RegisterMany(Register(r).0, n - 1)
  }

  /** Each registration counts exactly one child and adds one handle. */
  lemma {:induction false} RegisterManyCounts(r: Registry, n: nat)
    ensures RegisterMany(r, n).count == r.count + n
    ensures |RegisterMany(r, n).accounted| == |r.accounted| + n
    ensures Valid(r) ==> Valid(RegisterMany(r, n))
    decreases n
  {
    if n > 0 {
      RegisterManyCounts(Register(r).0, n - 1);
    }
  }

  /** Registrations leave the earlier sentinels alone, and every new handle starts live. */
  lemma {:induction false} RegisterManyFlags(r: Registry, n: nat)
    ensures |RegisterMany(r, n).accounted| == |r.accounted| + n
    ensures forall i :: 0 <= i < |r.accounted| ==> RegisterMany(r, n).accounted[i] == r.accounted[i]
    ensures forall i :: |r.accounted| <= i < |r.accounted| + n ==> !RegisterMany(r, n).accounted[i]
    decreases n
  {
    if n > 0 {
      var r1 := Register(r).0;
      var rn := RegisterMany(r1, n - 1);
      RegisterManyFlags(r1, n - 1);
      forall i | 0 <= i < |r.accounted| + n
        ensures rn.accounted[i] == if i < |r.accounted| then r.accounted[i] else false
      {
        if i <= |r.accounted| {
          assert rn.accounted[i] == r1.accounted[i];
        }
      }
    }
  }
}

=== FILE: scenarios.dfy ===
/** Concrete runs of the state machine mirroring how the utilities are
    exercised: launches that are killed, streaming launches that follow one
    another, and the `onAllExited` scenario with mixed callback and promise
    launches.
 */
module Scenarios {
  import opened JsValues
  import opened LiveChildren
  import opened Launching
  import opened Lifecycle

  /** A killed `exec` child with default options reports the signal, a `null`
      stdout (it is not piped) and whatever stderr drained to. */
  lemma KilledExecReportsSignal(sig: string, out: string, err: string)
    ensures var c := ExitCall(None, Some(sig), ChildStreams(LaunchOptions(Exec, None), out, err));
      && c.ErrorCall?
      && c.error["signal"] == Str(sig) && c.error["code"] == Null
      && c.error["stdout"] == Null && c.error["stderr"] == Str(err)
  {
    DefaultWiring(Exec, None);
  }

  /** The colour follows the live count, not the number of streaming launches
      so far: a streaming launch after the first child has exited gets the
      same colour as that child. */
  lemma ColourRepeatsAfterExit(a: string, b: string)
    ensures var (w1, h1) := LaunchChild(Start, Streaming("a"), None, false, a, b);
      var w2 := OnExit(w1, h1, Some(0), None);
      var (w3, h2) := LaunchChild(w2, Streaming("b"), None, false, a, b);
      && h1 != h2
      && w3.children[h1].colour == w3.children[h2].colour == Some(Cyan)
  {
    var (w1, h1) := LaunchChild(Start, Streaming("a"), None, false, a, b);
    StreamingColourIsLiveCount(Start, "a", None, false, a, b);
    var w2 := OnExit(w1, h1, Some(0), None);
    assert w2.reg.count == 0;
    var (w3, h2) := LaunchChild(w2, Streaming("b"), None, false, a, b);
    StreamingColourIsLiveCount(w2, "b", None, false, a, b);
    assert w3.children[h1] == w3.children[..|w2.children|][h1] == w2.children[h1];
  }

  /** A quiet `exec` launch: default options, no output. */
  function QuietExec(withCallback: bool): Event {
    Launch(Exec, None, withCallback, "", "")
  }

  /** What `exec` with default options leaves behind: a live handle with no stdout. */
  lemma QuietExecStep(w: World, cb: bool)
    ensures var w' := Step(w, QuietExec(cb));
      && w'.reg == w.reg.(count := w.reg.count + 1, accounted := w.reg.accounted + [false])
      && w'.log == w.log
      && |w'.children| == |w.children| + 1 && w'.children[..|w.children|] == w.children
      && w'.children[|w.children|].withCallback == w'.children[|w.children|].onExit == cb
      && w'.children[|w.children|].streams.stdout.None?
  {
    DefaultWiring(Exec, None);
  }

  /** Quiet `exec` launches, one per callback flag. */
  function QuietExecs(cbs: seq<bool>): (es: seq<Event>)
    ensures |es| == |cbs| && forall i :: 0 <= i < |cbs| ==> es[i] == QuietExec(cbs[i])
  {
    seq(|cbs|, i requires 0 <= i < |cbs| => QuietExec(cbs[i]))
  }

  /** Quiet `exec` launches register one live handle each and show nothing to callers. */
  lemma {:induction false} QuietExecsRegister(w: World, cbs: seq<bool>)
    ensures var w' := Run(w, QuietExecs(cbs));
      && w'.reg.count == w.reg.count + |cbs|
      && w'.reg.pending == w.reg.pending && w'.reg.listeners == w.reg.listeners
      && |w'.reg.accounted| == |w.reg.accounted| + |cbs|
      && (forall i :: 0 <= i < |w.reg.accounted| ==> w'.reg.accounted[i] == w.reg.accounted[i])
      && (forall i :: |w.reg.accounted| <= i < |w'.reg.accounted| ==> !w'.reg.accounted[i])
      && w'.log == w.log
    decreases |cbs|
  {
    if |cbs| == 0 {
      assert QuietExecs(cbs) == [];
    } else {
      var n := |cbs| - 1;
      assert QuietExecs(cbs) == QuietExecs(cbs[..n]) + [QuietExec(cbs[n])];
      QuietExecsRegister(w, cbs[..n]);
      RunSnoc(w, QuietExecs(cbs[..n]), QuietExec(cbs[n]));
      QuietExecStep(Run(w, QuietExecs(cbs[..n])), cbs[n]);
    }
  }

  /** Quiet `exec` launches append one stdout-less child each, in order. */
  lemma {:induction false} QuietExecsAppendChildren(w: World, cbs: seq<bool>)
    ensures var w' := Run(w, QuietExecs(cbs));
      && |w'.children| == |w.children| + |cbs|
      && (forall i :: 0 <= i < |w.children| ==> w'.children[i] == w.children[i])
      && (forall j :: |w.children| <= j < |w'.children| ==>
            && w'.children[j].withCallback == cbs[j - |w.children|]
            && w'.children[j].onExit == cbs[j - |w.children|]
            && w'.children[j].streams.stdout.None?)
    decreases |cbs|
  {
    if |cbs| == 0 {
      assert QuietExecs(cbs) == [];
    } else {
      var n := |cbs| - 1;
      assert QuietExecs(cbs) == QuietExecs(cbs[..n]) + [QuietExec(cbs[n])];
      QuietExecsAppendChildren(w, cbs[..n]);
      var m := Run(w, QuietExecs(cbs[..n]));
      RunSnoc(w, QuietExecs(cbs[..n]), QuietExec(cbs[n]));
      QuietExecStep(m, cbs[n]);
      var w' := Step(m, QuietExec(cbs[n]));
      forall i | 0 <= i < |m.children|
        ensures w'.children[i] == m.children[i]
      {
        assert w'.children[i] == w'.children[..|m.children|][i];
      }
    }
  }

  /** The four launches of the scenario below. */
  lemma ScenarioLaunches(w0: World, cbs: seq<bool>) returns (w4: World)
    requires w0.reg == Initial && w0.children == [] && w0.log == []
    requires |cbs| == 4 && !cbs[0] && cbs[1] && cbs[2] && !cbs[3]
    ensures w4 == Run(w0, QuietExecs(cbs))
    ensures w4.reg == Registry(4, [false, false, false, false], [], []) && w4.log == []
    ensures |w4.children| == 4
    ensures !w4.children[0].withCallback && !w4.children[3].withCallback
    ensures w4.children[1].withCallback && w4.children[1].onExit && w4.children[1].streams.stdout.None?
    ensures w4.children[2].withCallback && w4.children[2].onExit && w4.children[2].streams.stdout.None?
  {
    QuietExecsRegister(w0, cbs);
    QuietExecsAppendChildren(w0, cbs);
    w4 := Run(w0, QuietExecs(cbs));
    var acc := w4.reg.accounted;
    assert |acc| == 4 && !acc[0] && !acc[1] && !acc[2] && !acc[3];
    assert acc == [false, false, false, false];
  }

  /** The four launches and the subscription of the scenario below. */
  lemma ScenarioSetUp(w0: World, cbs: seq<bool>)
    requires w0.reg == Initial && w0.children == [] && w0.log == []
    requires |cbs| == 4 && !cbs[0] && cbs[1] && cbs[2] && !cbs[3]
    ensures var w := Run(w0, QuietExecs(cbs) + [Subscribe(7)]);
      && w.reg == Registry(4, [false, false, false, false], [], [7])
      && w.log == []
      && |w.children| == 4
      && !w.children[0].withCallback && !w.children[3].withCallback
      && w.children[1].withCallback && w.children[1].onExit && w.children[1].streams.stdout.None?
      && w.children[2].withCallback && w.children[2].onExit && w.children[2].streams.stdout.None?
  {
    var w4 := ScenarioLaunches(w0, cbs);
    RunSnoc(w0, QuietExecs(cbs), Subscribe(7));
    assert Step(w4, Subscribe(7)).children == w4.children;
  }

  /** Four `exec` launches of which two pass a callback, a listener, the four
      children exiting cleanly, then two turns of the event loop: each
      callback runs once with no arguments (stdout is not piped), and the
      listener hears "empty" once, after both callbacks. */
  lemma FourLaunchesThenAllExited(w0: World, cbs: seq<bool>, exits: seq<Event>)
    requires w0 == Start
    requires cbs == [false, true, true, false]
    requires exits == [ProcessExit(0, Some(0), None), ProcessExit(1, Some(0), None),
                       ProcessExit(2, Some(0), None), ProcessExit(3, Some(0), None), Tick, Tick]
    ensures Run(w0, QuietExecs(cbs) + [Subscribe(7)] + exits).log
            == [Called(1, BareCall), Called(2, BareCall), Notified(7)]
  {
    var setUp := QuietExecs(cbs) + [Subscribe(7)];
    assert |cbs| == 4 && !cbs[0] && cbs[1] && cbs[2] && !cbs[3];
    ScenarioSetUp(w0, cbs);
    RunAppend(w0, setUp, exits);
    ScenarioExits(Run(w0, setUp), exits);
  }

  /** A clean exit of a live child whose stdout is not piped. */
  lemma CleanExit(w: World, h: Handle)
    requires Known(w, h) && !w.reg.accounted[h]
    requires w.children[h].withCallback ==> w.children[h].onExit && w.children[h].streams.stdout.None?
    ensures var w' := Step(w, ProcessExit(h, Some(0), None));
      && w'.reg == BookKeep(w.reg, h)
      && w'.log == w.log + (if w.children[h].withCallback then [Called(h, BareCall)] else [])
      && |w'.children| == |w.children|
      && forall i :: 0 <= i < |w.children| && i != h ==> w'.children[i] == w.children[i]
  {
  }

  /** The second half of the scenario: the four exits and two turns. */
  lemma ScenarioExits(w5: World, exits: seq<Event>)
    requires w5.reg == Registry(4, [false, false, false, false], [], [7])
    requires w5.log == [] && |w5.children| == 4
    requires !w5.children[0].withCallback && !w5.children[3].withCallback
    requires w5.children[1].withCallback && w5.children[1].onExit && w5.children[1].streams.stdout.None?
    requires w5.children[2].withCallback && w5.children[2].onExit && w5.children[2].streams.stdout.None?
    requires exits == [ProcessExit(0, Some(0), None), ProcessExit(1, Some(0), None),
                       ProcessExit(2, Some(0), None), ProcessExit(3, Some(0), None), Tick, Tick]
    ensures Run(w5, exits).log == [Called(1, BareCall), Called(2, BareCall), Notified(7)]
  {
    var w7 := FirstTwoExits(w5);
    var w9 := LastTwoExits(w7);
    var w10 := Step(w9, exits[4]);
    var w11 := Step(w10, exits[5]);
    assert w11.log == [Called(1, BareCall), Called(2, BareCall), Notified(7)];
    RunUnfolds(w5, exits, [w5, Step(w5, exits[0]), w7, Step(w7, exits[2]), w9, w10, w11]);
  }

  lemma FirstTwoExits(w5: World) returns (w7: World)
    requires w5.reg == Registry(4, [false, false, false, false], [], [7])
    requires w5.log == [] && |w5.children| == 4
    requires !w5.children[0].withCallback && !w5.children[3].withCallback
    requires w5.children[1].withCallback && w5.children[1].onExit && w5.children[1].streams.stdout.None?
    requires w5.children[2].withCallback && w5.children[2].onExit && w5.children[2].streams.stdout.None?
    ensures w7 == Step(Step(w5, ProcessExit(0, Some(0), None)), ProcessExit(1, Some(0), None))
    ensures w7.reg == Registry(2, [true, true, false, false], [], [7]) && w7.log == [Called(1, BareCall)]
    ensures |w7.children| == 4 && !w7.children[3].withCallback && w7.children[2] == w5.children[2]
  {
    var w6 := Step(w5, ProcessExit(0, Some(0), None));
    CleanExit(w5, 0);
    assert w6.reg == Registry(3, [true, false, false, false], [], [7]) && w6.log == [];
    w7 := Step(w6, ProcessExit(1, Some(0), None));
    CleanExit(w6, 1);
  }

  lemma LastTwoExits(w7: World) returns (w9: World)
    requires w7.reg == Registry(2, [true, true, false, false], [], [7]) && w7.log == [Called(1, BareCall)]
    requires |w7.children| == 4 && !w7.children[3].withCallback
    requires w7.children[2].withCallback && w7.children[2].onExit && w7.children[2].streams.stdout.None?
    ensures w9 == Step(Step(w7, ProcessExit(2, Some(0), None)), ProcessExit(3, Some(0), None))
    ensures w9.reg == Registry(0, [true, true, true, true], [EmitEmpty], [7])
    ensures w9.log == [Called(1, BareCall), Called(2, BareCall)]
  {
    var w8 := Step(w7, ProcessExit(2, Some(0), None));
    CleanExit(w7, 2);
    assert w8.reg == Registry(1, [true, true, true, false], [], [7]);
    w9 := Step(w8, ProcessExit(3, Some(0), None));
    CleanExit(w8, 3);
  }

  /** A launch, a subscription, that child's clean exit, and a second launch. */
  lemma StaleSetUp(w0: World, es: seq<Event>) returns (w4: World)
    requires w0.reg == Initial && w0.children == [] && w0.log == []
    requires |es| == 4 && es[0] == QuietExec(false) && es[1] == Subscribe(7)
    requires es[2] == ProcessExit(0, Some(0), None) && es[3] == QuietExec(false)
    ensures w4 == Run(w0, es)
    ensures w4.reg == Registry(1, [true, false], [EmitEmpty], [7])
  {
    var w1 := Step(w0, es[0]);
    QuietExecStep(w0, false);
    var w2 := Step(w1, es[1]);
    assert w2.reg == Registry(1, [false], [], [7]) && w2.children == w1.children;
    var w3 := Step(w2, es[2]);
    CleanExit(w2, 0);
    assert w3.reg == Registry(0, [true], [EmitEmpty], [7]);
    w4 := Step(w3, es[3]);
    QuietExecStep(w3, false);
    RunUnfolds(w0, es, [w0, w1, w2, w3, w4]);
  }

  /** The posted "empty" broadcast does not look at the count again when it
      runs: a child launched after the drain but before the next turn of the
      event loop is live, yet the listener still hears "empty". */
  lemma StaleEmptyWhileLive(w0: World, es: seq<Event>)
    requires w0 == Start
    requires es == [QuietExec(false), Subscribe(7), ProcessExit(0, Some(0), None), QuietExec(false)]
    ensures Run(w0, es).reg.count == 1
    ensures RunTick(Run(w0, es)).log == Run(w0, es).log + [Notified(7)]
  {
    var w4 := StaleSetUp(w0, es);
    assert Notices(w4.reg.listeners) == [Notified(7)];
  }

  /** `exec` with `stdio: "pipe"` and a callback: a clean exit calls back
      with `null` and exactly the text stdout drained to. */
  lemma PipedExecHandsOverStdout(w: World, opts: Obj, out: string, err: string)
    requires Consistent(w)
    requires "stdio" in opts && opts["stdio"] == Pipe
    ensures var (w1, h) := LaunchChild(w, Exec, Some(opts), true, out, err);
      var w2 := OnExit(w1, h, Some(0), None);
      && w2.log == w.log + [Called(h, ResultCall(Str(out)))]
      && w2.reg.count == w.reg.count
  {
    var (w1, h) := LaunchChild(w, Exec, Some(opts), true, out, err);
    CallerPipeWins(Exec, opts);
    assert w1.log == w.log;
    assert w1.children[h].streams.stdout == Some(out);
  }

  /** Only the bookkeeping is guarded: a child with a callback that reports
      `error` and then `exit` is counted down once but calls back twice,
      first with the annotated error. */
  lemma ErrorThenExitCallsBackTwice(w: World, mode: Mode, opts: Option<Obj>, out: string, err: string,
                                    error: Obj, code: Option<int>, signal: Option<string>)
    requires Consistent(w)
    ensures var (w1, h) := LaunchChild(w, mode, opts, true, out, err);
      var w2 := OnError(w1, h, error);
      var w3 := OnExit(w2, h, code, signal);
      && w3.reg.count == w.reg.count
      && |w3.log| == |w1.log| + 2
      && w3.log[|w1.log|] == Called(h, ErrorEventCall(error, w1.children[h].streams))
      && w3.log[|w1.log| + 1] == Called(h, ExitCall(code, signal, w1.children[h].streams))
  {
    var (w1, h) := LaunchChild(w, mode, opts, true, out, err);
    var w2 := OnError(w1, h, error);
    assert w2.children[h].streams == w1.children[h].streams && w2.children[h].onExit;
  }
}
